=== FILE: README.md ===
# golang-video-screensaver: the libVLC bridge and the screensaver command line, in Dafny

This project models two pieces of the video screensaver.

The first is the bookkeeping of the libVLC bridge (`vlcwrap`). It covers:

- the process-wide instance and its `Init`/`Release`;
- the event registry, a map from subscription id to callback context plus a counter;
- the attach, detach and dispatch protocol built on that registry;
- the reference-counted object registry, and the teardown cascade a Media release runs through it;
- the Player and Media wrappers, whose handles are nulled on release;
- media loading with its error and clean-up paths.

The second is the Windows screensaver command-line parser, `parseCommandLineArgs`.

The native engine is abstract:

- A handle is an opaque non-null `Token`, or `None` for a nil pointer.
- Every libvlc call the bridge issues, and every `free` of an object-registry pointer, is appended to the world's effect log. The cgo string marshalling (`C.CString` and the `C.free` of those strings) is neither modelled nor logged, so "no native call" in this document means no libvlc call and no registry free. Each entry also records which subscription ids a dispatch would resolve at that moment. This lets the model state "no native call was made", "the context is stored before the native attach" and "the context is removed before the native detach".
- Each native answer (a handle, a return code, a boolean) is a parameter of the operation.
- The engine's last-error channel is an `Option<string>`. A native call whose error the bridge reads afterwards takes the channel's content after the call as a parameter (`errAfter`).
- Callbacks are opaque tokens. A dispatch returns the sequence of callback invocations it performs.

`strconv.ParseInt` is an abstract partial function (`string -> Option<int>`) in every parser property. `GoParseInt.ParseInt` is a concrete instance used to replay the repository's test cases.

Two failure paths do not fall back to a sentinel error the way `errOrDefault` callers do:

- When the native attach fails, `attach` returns id 0 with whatever the channel holds, and that error may be nil.
- When the native play call fails, `Play` returns the channel content, which may also be nil.
- The model keeps both as written.

Layout: `wrappers.dfy`, `opaque.dfy`, `native.dfy` and `errors.dfy` hold the shared types. `event_registry.dfy` and `object_registry.dfy` hold the two registries. `lifecycle.dfy`, `subscriptions.dfy`, `media_teardown.dfy` and `playback.dfy` hold the bridge. `command_line.dfy`, `go_parse_int.dfy` and `command_line_examples.dfy` hold the parser.

## Model

| member | source | states |
|---|---|---|
| Errors.ErrOrDefault | vlcwrap/vlcwrap.go:177-183 | the first error when there is one, else the fallback; a non-nil fallback always yields an error |
| Lifecycle.AssertInit | vlcwrap/vlcwrap.go:185-191 | fails with ModuleNotInitialized exactly when there is no instance |
| Lifecycle.PlayerAssertInit | vlcwrap/vlcwrap.go:261-267 | fails with PlayerNotInitialized exactly when the player handle is nil |
| Lifecycle.MediaAssertInit | vlcwrap/vlcwrap.go:402-408 | fails with MediaNotInitialized exactly when the media handle is nil |
| Lifecycle.GetError | vlcwrap/vlcwrap.go:166-175 | a message in the channel becomes an error and the channel is cleared; an empty channel gives nil; the instance is untouched |
| Lifecycle.Init | vlcwrap/vlcwrap.go:196-233 | no-op returning nil when already initialised; otherwise the library load is the first native call, a failed load gives LibraryLoad, a null engine gives the channel message or ModuleInitialize, and success installs empty registries; it returns nil exactly when an instance exists afterwards |
| Lifecycle.Release | vlcwrap/vlcwrap.go:236-245 | no-op returning nil without an instance; otherwise releases the engine handle first; the singleton is always cleared |
| Lifecycle.InitReleaseCycle | vlcwrap/vlcwrap.go:196-245 | a successful Init then Release leaves no instance, and a second Release issues no native call |
| EventRegistry.New | vlcwrap/vlcwrap.go:511-515 | a fresh registry is valid, resolves no id and has its counter at 0 |
| EventRegistry.Get | vlcwrap/vlcwrap.go:557-567 | id 0 is never found whatever the registry holds; any other id is found exactly when stored, with the stored context |
| EventRegistry.Add | vlcwrap/vlcwrap.go:517-533 | the counter is incremented before use; without wrap-around the new id is non-zero and was unused; it resolves to the stored context; every other id resolves as before |
| EventRegistry.Remove | vlcwrap/vlcwrap.go:569-577 | remove(0) changes nothing; otherwise only the given id stops resolving; the counter never moves; validity is kept |
| EventRegistry.SuccessiveIds | vlcwrap/vlcwrap.go:517-533 | successive adds hand out sequence+1, sequence+2 and so on; the ids are never 0 and never reused; each resolves to its own context; older entries are untouched |
| Subscriptions.AttachCallbacks | vlcwrap/vlcwrap.go:494-509 | no instance gives ModuleNotInitialized; two nil callbacks give InvalidEventCallback with the world unchanged; otherwise the context is stored under the next id before the native attach, and a native failure returns id 0 but keeps the stored context |
| Subscriptions.Attach | vlcwrap/vlcwrap.go:472-474 | a nil callback is refused without change; a successful attach returns the next id, and dispatching it runs exactly the external callback with the given arguments |
| Subscriptions.Dispatch | vlcwrap/vlcwrap.go:536-555 | runs nothing without an instance or for an unknown id; otherwise runs the external callback (if any) strictly before the internal one (if any), each once, with the stored event and user data |
| Subscriptions.DetachOne | vlcwrap/vlcwrap.go:483-489 | an unknown id is skipped with no native call; a found id is removed and its native detach is logged after the removal |
| Subscriptions.DetachAll | vlcwrap/vlcwrap.go:482-490 | every listed id stops resolving; unlisted ids and the counter are unchanged; each native call issued detaches a listed id that was registered, with its stored event kind, after it stops resolving; no id is detached twice |
| Subscriptions.DetachAllIssuesEveryFound | vlcwrap/vlcwrap.go:482-490 | every listed id that was registered is unregistered natively with its stored event |
| Subscriptions.Detach | vlcwrap/vlcwrap.go:477-491 | no-op without an instance; otherwise removes the listed ids, each before its native detach; ids not in the registry get no native call; every registered listed id is detached exactly once with its stored event kind; nothing else changes |
| Subscriptions.AttachThenDispatch | vlcwrap/vlcwrap.go:494-555 | after a successful attach, dispatching the returned fresh id runs exactly the supplied callbacks, external first |
| Subscriptions.AttachFailureOrphansContext | vlcwrap/vlcwrap.go:503-506 | a failed native attach returns id 0, which dispatches nothing, while the context stays stored under the counter's id |
| Subscriptions.DetachThenDispatch | vlcwrap/vlcwrap.go:477-491 | after Detach(ids), a dispatch for any listed id runs nothing |
| Subscriptions.AttachDetachRoundTrip | vlcwrap/vlcwrap.go:517-577 | attaching then detaching the returned id restores the registry contents while the counter has advanced by one |
| ObjectRegistry.Get | vlcwrap/vlcwrap.go:673-686 | a nil or unknown pointer is not found; a known one yields its payload |
| ObjectRegistry.DecRefs | vlcwrap/vlcwrap.go:688-705 | a nil or absent pointer is a silent no-op; a present count drops by exactly one; the entry is removed and freed exactly when the count reaches 0; other entries are untouched; the invariant refs >= 1 is kept |
| ObjectRegistry.FreedAfterExactlyRefs | vlcwrap/vlcwrap.go:688-705 | an entry with n references survives n-1 decrements with its count lowered accordingly, and is freed exactly once from the n-th on |
| ObjectRegistry.AbsentStaysAbsent | vlcwrap/vlcwrap.go:688-705 | decrementing an absent pointer any number of times changes nothing and frees nothing |
| MediaTeardown.GetUserData | vlcwrap/vlcwrap.go:619-636 | nothing and no native call without an instance; otherwise the user-data pointer and its reader are returned exactly when the pointer resolves to a mediaData record |
| MediaTeardown.DeleteUserData | vlcwrap/vlcwrap.go:638-646 | no change without an instance; with user data that is not mediaData, only the user-data query is issued; registries other than the objects are untouched |
| MediaTeardown.DeleteUserDataDropsChain | vlcwrap/vlcwrap.go:638-646 | for a reader distinct from the media's own pointer: the two each lose exactly one reference; one reaching zero is freed, the reader's free before the media's; every other entry is untouched |
| MediaTeardown.DeleteUserDataDropsSelfChain | vlcwrap/vlcwrap.go:638-646 | for a record whose reader is its own pointer: that entry loses two references and is freed exactly once, when its count was at most two; every other entry is untouched |
| MediaTeardown.ReleaseHandle | vlcwrap/vlcwrap.go:648-655 | the user data is deleted, then the native media is released and the wrapper nulled |
| MediaTeardown.ReleaseMedia | vlcwrap/vlcwrap.go:658-665 | a nil media returns nil with no native call; otherwise teardown precedes the native release and the channel is reported; the wrapper ends nil |
| MediaTeardown.ReleaseMediaTwice | vlcwrap/vlcwrap.go:658-665 | a second release returns nil and issues no native call |
| MediaTeardown.TeardownCascade | vlcwrap/vlcwrap.go:638-655 | with last references on both, the native calls run in order: user-data query, free of the reader, free of the media's pointer, media release; both entries are gone afterwards |
| Playback.NewPlayer | vlcwrap/vlcwrap.go:248-259 | no instance gives ModuleNotInitialized; a null native player gives the channel message or PlayerCreate; success wraps a non-nil handle |
| Playback.ReleasePlayer | vlcwrap/vlcwrap.go:608-617 | a nil player returns nil with no native call; otherwise the native release is issued and the channel reported; the wrapper always ends nil |
| Playback.ReleasePlayerTwice | vlcwrap/vlcwrap.go:608-617 | a second release returns nil and issues no native call |
| Playback.IsPlaying | vlcwrap/vlcwrap.go:442-448 | false with no native call for a nil player; otherwise the engine's answer |
| Playback.Play | vlcwrap/vlcwrap.go:425-438 | a nil player gives PlayerNotInitialized; when already playing it returns nil with only the is-playing query issued; otherwise the play call follows, and a negative code returns the channel content |
| Playback.Stop | vlcwrap/vlcwrap.go:598-605 | a nil player gives PlayerNotInitialized; otherwise the stop call is issued and the channel reported |
| Playback.CurrentMedia | vlcwrap/vlcwrap.go:580-595 | a nil player is an error; no bound media gives "no media, no error"; a bound media has the engine's extra reference dropped and is wrapped |
| Playback.FreshPlayerHasNoMedia | vlcwrap/vlcwrap.go:580-588 | with the engine answering that no media is bound, `Media()` on a player just created answers no media and no error |
| Playback.GetEventManager | vlcwrap/vlcwrap.go:458-469 | a nil player is an error; a null manager gives MissingEventManager |
| Playback.NewMedia | vlcwrap/vlcwrap.go:346-370 | no instance gives ModuleNotInitialized; a local path failing its existence check returns that error with no libvlc call; otherwise media is created from a path or a location, and a null answer gives the channel message or MediaCreate |
| Playback.SetMedia | vlcwrap/vlcwrap.go:372-382 | the player guard, then the media guard; otherwise binds the media and reports the channel |
| Playback.BindOrRelease | vlcwrap/vlcwrap.go:338-343 | succeeds with the created media exactly when the player is live and binding reports no error; otherwise returns setMedia's error, and the last native call releases the media |
| Playback.LoadMedia | vlcwrap/vlcwrap.go:332-344 | no instance or a failed existence check leaves the world unchanged with an error; a failed creation returns the creation error; with a created media it succeeds exactly when the player is live and binding reports no error, and otherwise returns the bind's error; a returned media is the one created; the log only grows |
| Playback.LoadMediaFromPath | vlcwrap/vlcwrap.go:328-330 | a path failing its existence check returns that error before any native media is created |
| Playback.LoadMediaSuccessBinds | vlcwrap/vlcwrap.go:332-344 | on success the native calls are exactly the creation, the binding of that media to the player and the empty error read |
| Playback.LoadMediaBindFailureReleases | vlcwrap/vlcwrap.go:338-343 | when binding a created media fails (a nil player, or an error after the bind), the bind's error is returned and the last native call releases that media |
| Playback.LoadMediaCreateFailureIssuesNoRelease | vlcwrap/vlcwrap.go:346-370 | when no media was created, nothing is bound or released, and a failed existence check issues no libvlc call and frees nothing |
| CommandLine.ToHwnd | cmd/screensaver/app.go:372 | the handle is the int64 reinterpreted as a 64-bit uintptr: unchanged when non-negative, and a negative value v becomes v + 2^64 (so -1 gives 2^64-1) |
| CommandLine.ParseCommandLineArgs | cmd/screensaver/app.go:340-378 | the index loop with its ignore index and early return computes exactly the reference left-to-right reading Parse |
| CommandLine.ScanAppend | cmd/screensaver/app.go:350-375 | scanning two runs of words is scanning the first and then the second |
| CommandLine.RejectedIsFinal | cmd/screensaver/app.go:368-371 | once a malformed preview handle is seen, no later word changes the result |
| CommandLine.EmptyIsConfigure | cmd/screensaver/app.go:347-348 | no arguments configure with handle 0 |
| CommandLine.LastModeFlagWins | cmd/screensaver/app.go:359-364 | /s, /p and /c overwrite the mode and keep the handle parsed so far |
| CommandLine.AbortSkipsNextWord | cmd/screensaver/app.go:351-358 | /a makes the command invalid, keeps the handle, and skips exactly the next word |
| CommandLine.PreviewNumberSetsHandle | cmd/screensaver/app.go:366-373 | in preview mode a numeric word sets the handle |
| CommandLine.PreviewNonNumberRejects | cmd/screensaver/app.go:368-371 | in preview mode a non-numeric word makes the result exactly an invalid command with handle 0, whatever follows |
| CommandLine.NonFlagIgnoredOutsidePreview | cmd/screensaver/app.go:365-374 | outside preview mode a non-flag word changes neither mode nor handle |
| GoParseInt.ParseInt | cmd/screensaver/app.go:368 | the result fits a 64-bit signed integer and the empty word is an error |
| GoParseInt.DecimalRoundTrip | cmd/screensaver/app.go:368 | parsing a decimal rendering gives back every int64 |
| GoParseInt.HexRoundTrip | cmd/screensaver/app.go:368 | parsing a 0x-prefixed hexadecimal rendering gives back every non-negative int64 |
| CommandLineExamples.AbortCasesAreInvalid | cmd/screensaver/app_test.go:6-18 | ["-a","0"], ["/a","ab0099"], ["-a"] and ["/a"] are invalid |
| CommandLineExamples.MalformedPreviewIsInvalid | cmd/screensaver/app_test.go:11 | ["/p","not a number"] is exactly an invalid command with handle 0 |
| CommandLineExamples.ModeCases | cmd/screensaver/app_test.go:20-30 | [] and ["/c"] configure, ["/s"] runs |
| CommandLineExamples.HexPreviewHandle | cmd/screensaver/app_test.go:32-35 | ["/p","0x200"] previews into window 0x200 |

## Left out

- All libvlc calls and the dynamic loader in vlcwrap/vlc.c are abstract: their answers are parameters, and only the calls themselves are logged.
- The cgo string marshalling is neither modelled nor logged. This covers the `C.CString` copies of the arguments in `Init` (vlcwrap/vlcwrap.go:205-209) and of the library path (vlcwrap/vlcwrap.go:214, never freed). It also covers the media path in `newMedia` (vlcwrap/vlcwrap.go:351-352), which is allocated before the existence check and freed on every return. A "no native call" claim does not cover these allocations.
- Lifecycle.Init: the path handed to the loader is logged but not interpreted. vlcwrap/vlc.c is not part of this model.
- A native call whose error the bridge never reads is assumed to leave the last-error channel unchanged. Each call that is followed by a read takes the channel's content as a free parameter, which covers any stale message.
- Subscriptions.AttachCallbacks: ids are not truncated to the C `unsigned long` passed to the native attach and detach. On 64-bit Windows that type is 32 bits wide, so ids at or above 2^32 would collide natively; the model keeps the full 64-bit id.
- The `sync.RWMutex` locking of both registries is left out. The model is sequential, and concurrency between dispatch and attach/detach is not modelled.
- The unsynchronised init/release race on the singleton is not modelled either.
- `SetHWND`, `SetKeyInput`, `SetMouseInput`, `SetAudioOutput` and `SetMute` are left out. They are guard, native call and error read, the same shape as `Playback.Stop`, and are outside the modelled core.
- `AudioOutputList` walks a native linked list and is left out.
- The object registry has no insert or increment in the wrapper. Its lemmas start from any registry in which every entry holds at least one reference.
- The list of event-type constants is left out. An event type is an opaque `int`.
- The `Instance` handle is non-null by construction. Only Init stores an instance, and only with a non-null handle (vlcwrap/vlcwrap.go:222-230); Release only clears it (vlcwrap/vlcwrap.go:242). So the handle half of the instance guard is part of the type.
- GoParseInt.ParseInt: digit-separator underscores are rejected, where Go accepts some of them. Every parser property is stated for an arbitrary parse function, so this concrete instance only replays the test cases.
- CommandLine.ToHwnd: assumes a 64-bit `uintptr` (a 64-bit Windows build).
- The screensaver shell is left out: window procedures, monitors, message loops, configuration dialogs, registry persistence, logging, randomness and directory scanning.
- The installer is left out.
- cmd/app.go and its test are left out. cmd/app.go does not define that parser, and its test disagrees with the screensaver's parser about the empty command line.

=== FILE: command_line.dfy ===
/** The Windows screensaver command line: a left-to-right scan of the
    arguments that picks a mode (`/s` run, `/p <hwnd>` preview, `/c`
    configure, `/a` change password, which is refused) and, in preview mode,
    the parent window handle. */
module CommandLine {
  import opened Wrappers

  datatype CommandType = InvalidCommand | RunScreenSaver | PreviewScreenSaver | ConfigureScreenSaver

  /** `win.HWND` is a `uintptr`, 64 bits on the target. */
  const UintptrModulus: nat := 0x1_0000_0000_0000_0000

  datatype Command = Command(ctype: CommandType, hwnd: nat)

  /** Go's conversion `win.HWND(parsedInt)` of an `int64`. */
  function ToHwnd(v: int): (h: nat)
    ensures h < UintptrModulus
    ensures 0 <= v < UintptrModulus ==> h == v
    ensures -(UintptrModulus as int) <= v < 0 ==> h == v + UintptrModulus
  {
    v % UintptrModulus
  }

  /** `strconv.ParseInt(word, 0, 64)`: a partial function from words to
      integers, left abstract; `None` is a parse error. */
  type IntParser = string -> Option<int>

  predicate IsAbort(word: string) { word == "-a" || word == "/a" || word == "/A" }
  predicate IsRun(word: string) { word == "-s" || word == "/s" || word == "/S" }
  predicate IsPreview(word: string) { word == "-p" || word == "/p" || word == "/P" }
  predicate IsConfigure(word: string) { word == "-c" || word == "/c" || word == "/C" }

  predicate IsFlag(word: string) {
    IsAbort(word) || IsRun(word) || IsPreview(word) || IsConfigure(word)
  }

  /** The mode a flag selects. */
  function ModeOf(word: string): CommandType
    requires IsFlag(word)
  {
    if IsAbort(word) then InvalidCommand
    else if IsRun(word) then RunScreenSaver
    else if IsPreview(word) then PreviewScreenSaver
    else ConfigureScreenSaver
  }

  /** The reference reading of the scan: the command so far and whether the
      next word is to be skipped, or the rejection of a malformed handle. */
  datatype Scan = Scanning(cmd: Command, skipNext: bool) | Rejected

  const Start: Scan := Scanning(Command(ConfigureScreenSaver, 0), false)

  /** One word of the scan. */
  function Step(s: Scan, word: string, parseInt: IntParser): Scan {
    match s
    case Rejected => Rejected
    case Scanning(cmd, true) => Scanning(cmd, false)
    case Scanning(cmd, false) =>
      if IsFlag(word) then Scanning(cmd.(ctype := ModeOf(word)), IsAbort(word))
      else if cmd.ctype != PreviewScreenSaver then s
      else match parseInt(word)
        case None => Rejected
        case Some(v) => Scanning(cmd.(hwnd := ToHwnd(v)), false)
  }

  function ScanFrom(s: Scan, args: seq<string>, parseInt: IntParser): Scan
    decreases |args|
  {
    if args == [] then s else ScanFrom(Step(s, args[0], parseInt), args[1..], parseInt)
  }

  function CommandOf(s: Scan): Command {
    match s
    case Rejected => Command(InvalidCommand, 0)
    case Scanning(cmd, _) => cmd
  }

  /** The command the arguments denote. */
  function Parse(args: seq<string>, parseInt: IntParser): Command {
    CommandOf(ScanFrom(Start, args, parseInt))
  }

  /** Scanning one more word is one more step. */
  lemma {:induction false} ScanSnoc(s: Scan, args: seq<string>, word: string, parseInt: IntParser)
    ensures ScanFrom(s, args + [word], parseInt) == Step(ScanFrom(s, args, parseInt), word, parseInt)
    decreases |args|
  {
    if args != [] {
      assert (args + [word])[1..] == args[1..] + [word];
      ScanSnoc(Step(s, args[0], parseInt), args[1..], word, parseInt);
    }
  }

  /** A rejected scan stays rejected, whatever follows. */
  lemma {:induction false} RejectedIsFinal(args: seq<string>, parseInt: IntParser)
    ensures ScanFrom(Rejected, args, parseInt) == Rejected
    decreases |args|
  {
    if args != [] {
      RejectedIsFinal(args[1..], parseInt);
    }
  }

  /** `parseCommandLineArgs` as written: an index loop with an `ignore`
      index set by `/a`, returning early on a malformed preview handle. It
      computes exactly the reference reading `Parse`. */
  method ParseCommandLineArgs(args: seq<string>, parseInt: IntParser) returns (command: Command)
    ensures command == Parse(args, parseInt)
  {
    var ignore := -1;
    command := Command(ConfigureScreenSaver, 0);
    var index := 0;
    while index < |args|
      invariant 0 <= index <= |args|
      invariant ignore <= index
      invariant ScanFrom(Start, args[..index], parseInt) == Scanning(command, ignore == index)
    {
      var word := args[index];
      ScanSnoc(Start, args[..index], word, parseInt);
      assert args[..index + 1] == args[..index] + [word];
      if index <= ignore {
        index := index + 1;
        continue;
      }
      if IsAbort(word) {
        ignore := index + 1;
        command := command.(ctype := InvalidCommand);
      } else if IsRun(word) {
        command := command.(ctype := RunScreenSaver);
      } else if IsPreview(word) {
        command := command.(ctype := PreviewScreenSaver);
      } else if IsConfigure(word) {
        command := command.(ctype := ConfigureScreenSaver);
      } else if command.ctype == PreviewScreenSaver {
        var parsed := parseInt(word);
        if parsed.None? {
          assert ScanFrom(Start, args[..index + 1], parseInt) == Rejected;
          RejectedIsFinal(args[index + 1..], parseInt);
          ScanAppend(Start, args[..index + 1], args[index + 1..], parseInt);
          assert args[..index + 1] + args[index + 1..] == args;
          return Command(InvalidCommand, 0);
        }
        command := command.(hwnd := ToHwnd(parsed.value));
      }
      index := index + 1;
    }
    assert args[..index] == args;
  }

  /** Scanning two stretches of words is scanning the first, then the second. */
  lemma {:induction false} ScanAppend(s: Scan, front: seq<string>, back: seq<string>, parseInt: IntParser)
    ensures ScanFrom(s, front + back, parseInt) == ScanFrom(ScanFrom(s, front, parseInt), back, parseInt)
    decreases |front|
  {
    if front == [] {
      assert front + back == back;
    } else {
      assert (front + back)[1..] == front[1..] + back;
      ScanAppend(Step(s, front[0], parseInt), front[1..], back, parseInt);
    }
  }

  /** The scan after `args` is live and not skipping its next word. */
  predicate Active(args: seq<string>, parseInt: IntParser) {
    var s := ScanFrom(Start, args, parseInt);
    s.Scanning? && !s.skipNext
  }

  /** No arguments: configure, with no window handle. */
  lemma EmptyIsConfigure(parseInt: IntParser)
    ensures Parse([], parseInt) == Command(ConfigureScreenSaver, 0)
  {
  }

  /** `/s`, `/p` and `/c` overwrite the mode and keep the handle parsed so
      far: the last mode flag wins. */
  lemma LastModeFlagWins(args: seq<string>, word: string, parseInt: IntParser)
    requires Active(args, parseInt)
    requires IsRun(word) || IsPreview(word) || IsConfigure(word)
    ensures Parse(args + [word], parseInt) == Command(ModeOf(word), Parse(args, parseInt).hwnd)
    ensures Active(args + [word], parseInt)
  {
    ScanSnoc(Start, args, word, parseInt);
  }

  /** `/a` makes the command invalid, keeps the handle, and skips exactly
      the next word, whatever it is; the word after that is scanned again. */
  lemma AbortSkipsNextWord(args: seq<string>, abort: string, next: string, parseInt: IntParser)
    requires Active(args, parseInt)
    requires IsAbort(abort)
    ensures Parse(args + [abort], parseInt) == Command(InvalidCommand, Parse(args, parseInt).hwnd)
    ensures ScanFrom(Start, args + [abort, next], parseInt)
            == Scanning(Command(InvalidCommand, Parse(args, parseInt).hwnd), false)
  {
    ScanSnoc(Start, args, abort, parseInt);
    ScanSnoc(Start, args + [abort], next, parseInt);
    assert args + [abort] + [next] == args + [abort, next];
  }

  /** In preview mode a word that parses as an integer sets the handle. */
  lemma PreviewNumberSetsHandle(args: seq<string>, word: string, parseInt: IntParser)
    requires Active(args, parseInt)
    requires Parse(args, parseInt).ctype == PreviewScreenSaver
    requires !IsFlag(word) && parseInt(word).Some?
    ensures Parse(args + [word], parseInt)
            == Command(PreviewScreenSaver, ToHwnd(parseInt(word).value))
    ensures Active(args + [word], parseInt)
  {
    ScanSnoc(Start, args, word, parseInt);
  }

  /** In preview mode a word that does not parse makes the whole result
      exactly an invalid command with no handle, whatever follows. */
  lemma PreviewNonNumberRejects(args: seq<string>, word: string, rest: seq<string>, parseInt: IntParser)
    requires Active(args, parseInt)
    requires Parse(args, parseInt).ctype == PreviewScreenSaver
    requires !IsFlag(word) && parseInt(word).None?
    ensures Parse(args + [word] + rest, parseInt) == Command(InvalidCommand, 0)
  {
    ScanSnoc(Start, args, word, parseInt);
    ScanAppend(Start, args + [word], rest, parseInt);
    RejectedIsFinal(rest, parseInt);
  }

  /** Outside preview mode a word that is not a flag changes nothing. */
  lemma NonFlagIgnoredOutsidePreview(args: seq<string>, word: string, parseInt: IntParser)
    requires Active(args, parseInt)
    requires Parse(args, parseInt).ctype != PreviewScreenSaver
    requires !IsFlag(word)
    ensures ScanFrom(Start, args + [word], parseInt) == ScanFrom(Start, args, parseInt)
  {
    ScanSnoc(Start, args, word, parseInt);
  }
}

=== FILE: command_line_examples.dfy ===
/** The screensaver's command-line test cases, replayed on the reference
    reading with the concrete `ParseInt` instance. */
module CommandLineExamples {
  import opened CommandLine
  import GoParseInt

  /** `/a` in any spelling, with or without a following word, is invalid. */
  lemma AbortCasesAreInvalid()
    ensures Parse(["-a", "0"], GoParseInt.ParseInt).ctype == InvalidCommand
    ensures Parse(["/a", "ab0099"], GoParseInt.ParseInt).ctype == InvalidCommand
    ensures Parse(["-a"], GoParseInt.ParseInt).ctype == InvalidCommand
    ensures Parse(["/a"], GoParseInt.ParseInt).ctype == InvalidCommand
  {
  }

  /** A preview handle that is not a number is invalid. */
  lemma MalformedPreviewIsInvalid()
    ensures Parse(["/p", "not a number"], GoParseInt.ParseInt) == Command(InvalidCommand, 0)
  {
  }

  /** The empty command line configures; `/s` runs; `/c` configures. */
  lemma ModeCases()
    ensures Parse([], GoParseInt.ParseInt).ctype == ConfigureScreenSaver
    ensures Parse(["/s"], GoParseInt.ParseInt).ctype == RunScreenSaver
    ensures Parse(["/c"], GoParseInt.ParseInt).ctype == ConfigureScreenSaver
  {
  }

  /** `/p 0x200` previews into window 0x200. */
  lemma HexPreviewHandle()
    ensures Parse(["/p", "0x200"], GoParseInt.ParseInt) == Command(PreviewScreenSaver, 0x200)
  {
    GoParseInt.HexRoundTrip(0x200);
    assert GoParseInt.Format(0x200, 16) == "200";
    assert "0x" + "200" == "0x200";
  }
}

=== FILE: errors.dfy ===
/** The bridge's error values. A Go `error` that may be nil is an
    `Option<Error>`. */
module Errors {
  import opened Wrappers

  datatype Error =
    | PlayerCreate
    | PlayerNotInitialized
    | MediaNotInitialized
    | MediaCreate
    | MissingEventManager
    | InvalidEventCallback
    | ModuleNotInitialized
    | ModuleInitialize
    | LibraryLoad
    | AudioOutputSet
      /** A message read from the engine's last-error channel. */
    | Engine(message: string)
      /** A failed existence check on a local media path. */
    | FileSystem(message: string)

  /** The first error when there is one, the fallback otherwise: a native
      failure with a sentinel fallback is never reported as success. */
  function ErrOrDefault(err: Option<Error>, default: Option<Error>): (r: Option<Error>)
    ensures err.Some? ==> r == err
    ensures err.None? ==> r == default
    ensures default.Some? ==> r.Some?
  {
    if err.Some? then err else default
  }
}

=== FILE: event_registry.dfy ===
/** The registry of event subscriptions: a map from subscription id to the
    context stored by `attach`, plus the counter that numbers them. Id 0 is
    reserved and never resolves. */
module EventRegistry {
  import opened Wrappers
  import opened Opaque

  /** `EventID` is a Go `uint64`: the counter wraps modulo 2^64. */
  const IdModulus: nat := 0x1_0000_0000_0000_0000

  /** A libvlc event type (`MediaPlayerEndReached` and the like). */
  type Event = int

  datatype EventContext = EventContext(
    event: Event,
    external: Option<Callback>,
    internal: Option<Callback>,
    userData: Value)

  datatype Registry = Registry(contexts: map<nat, EventContext>, sequence: nat)

  /** Every stored id was handed out by the counter and is not the reserved 0. */
  predicate Valid(r: Registry) {
    && r.sequence < IdModulus
    && forall id | id in r.contexts :: 0 < id <= r.sequence
  }

  /** The registry a fresh instance starts with. */
  function New(): (r: Registry)
    ensures Valid(r)
    ensures r.sequence == 0
    ensures forall id :: Get(r, id).None?
  {
    Registry(map[], 0)
  }

  /** Looks a subscription up; the reserved id 0 is never found, whatever
      the registry holds. */
  function Get(r: Registry, id: nat): (found: Option<EventContext>)
    ensures id == 0 ==> found.None?
    ensures found.Some? <==> id != 0 && id in r.contexts
    ensures found.Some? ==> found.value == r.contexts[id]
  {
    if id == 0 then None
    else if id in r.contexts then Some(r.contexts[id])
    else None
  }

  datatype Added = Added(registry: Registry, id: nat)

  /** Stores `ctx` under the next value of the counter, which is incremented
      before use, and returns that id. */
  function Add(r: Registry, ctx: EventContext): (a: Added)
    ensures a.registry.sequence == a.id
    ensures r.sequence + 1 < IdModulus ==> a.id == r.sequence + 1
    ensures a.id != 0 ==> Get(a.registry, a.id) == Some(ctx)
    ensures forall id | id != a.id :: Get(a.registry, id) == Get(r, id)
    ensures Valid(r) && r.sequence + 1 < IdModulus ==>
              a.id != 0 && a.id !in r.contexts && Valid(a.registry)
  {
    var id := (r.sequence + 1) % IdModulus;
    Added(Registry(r.contexts[id := ctx], id), id)
  }

  /** Deletes one subscription. Id 0 changes nothing; the counter never moves. */
  function Remove(r: Registry, id: nat): (r': Registry)
    ensures id == 0 ==> r' == r
    ensures r'.sequence == r.sequence
    ensures Get(r', id).None?
    ensures forall k | k != id :: Get(r', k) == Get(r, k)
    ensures Valid(r) ==> Valid(r')
  {
    if id == 0 then r
    else Registry(r.contexts - {id}, r.sequence)
  }

  datatype AddedAll = AddedAll(registry: Registry, ids: seq<nat>)

  /** Adds several contexts one after another, collecting the ids. */
  function AddEach(r: Registry, ctxs: seq<EventContext>): (a: AddedAll)
    ensures |a.ids| == |ctxs|
    decreases |ctxs|
  {
    if ctxs == [] then AddedAll(r, [])
    else
      var first := Add(r, ctxs[0]);
      var rest := AddEach(first.registry, ctxs[1..]);
      AddedAll(rest.registry, [first.id] + rest.ids)
  }

  /** Successive adds hand out sequence+1, sequence+2, ...: never 0, never an
      id already in use, and each id resolves to exactly the context stored
      under it while the entries that were there before stay as they were. */
  lemma {:induction false} SuccessiveIds(r: Registry, ctxs: seq<EventContext>)
    requires Valid(r)
    requires r.sequence + |ctxs| < IdModulus
    ensures var a := AddEach(r, ctxs);
      && Valid(a.registry)
      && a.registry.sequence == r.sequence + |ctxs|
      && (forall i | 0 <= i < |ctxs| :: a.ids[i] == r.sequence + i + 1)
      && (forall i | 0 <= i < |ctxs| :: a.ids[i] != 0 && a.ids[i] !in r.contexts)
      && (forall i | 0 <= i < |ctxs| :: Get(a.registry, a.ids[i]) == Some(ctxs[i]))
      && (forall id | id in r.contexts :: Get(a.registry, id) == Get(r, id))
    decreases |ctxs|
  {
    if ctxs != [] {
      var first := Add(r, ctxs[0]);
      SuccessiveIds(first.registry, ctxs[1..]);
      var rest := AddEach(first.registry, ctxs[1..]);
      var a := AddEach(r, ctxs);
      assert a.ids == [first.id] + rest.ids;
      forall i | 0 <= i < |ctxs|
        ensures Get(a.registry, a.ids[i]) == Some(ctxs[i])
      {
        if i > 0 {
          assert a.ids[i] == rest.ids[i - 1];
          assert ctxs[1..][i - 1] == ctxs[i];
        }
      }
    }
  }
}

=== FILE: go_parse_int.dfy ===
/** A concrete instance of Go's `strconv.ParseInt(word, 0, 64)`: an optional
    sign, then a `0x`, `0o` or `0b` prefix, a leading `0` for octal, or plain
    decimal digits, and the result must fit in 64-bit two's complement.
    Digit-separator underscores are not accepted by this instance. */
module GoParseInt {
  import opened Wrappers

  /** 2^63: the magnitude bound of a Go `int64`. */
  const Int64Bound: int := 0x8000_0000_0000_0000

  function Lower(c: char): char {
    if 'A' <= c <= 'Z' then (c as int - 'A' as int + 'a' as int) as char else c
  }

  /** The value of a digit in bases up to 36, if it is one. */
  function DigitValue(c: char): Option<nat> {
    if '0' <= c <= '9' then Some(c as int - '0' as int)
    else if 'a' <= Lower(c) <= 'z' then Some(Lower(c) as int - 'a' as int + 10)
    else None
  }

  predicate IsDigit(c: char, base: nat) {
    DigitValue(c).Some? && DigitValue(c).value < base
  }

  /** The value of a string of base-`base` digits, most significant first;
      callers check that every character is a digit (see `Digits`). */
  function Value(s: string, base: nat): nat
    decreases |s|
  {
    if s == [] then 0
    else
      var digit: nat := if DigitValue(s[|s| - 1]).Some? then DigitValue(s[|s| - 1]).value else 0;
      Value(s[..|s| - 1], base) * base + digit
  }

  /** The digits' value, or nothing when some character is not a digit. */
  function Digits(s: string, base: nat): Option<nat> {
    if forall i | 0 <= i < |s| :: IsDigit(s[i], base) then Some(Value(s, base)) else None
  }

  /** `ParseUint(s, 0, 64)` before its range check: the base comes from the
      prefix; a lone leading `0` selects octal. */
  function ParseUnsigned(s: string): Option<nat> {
    if s == [] then None
    else if s[0] == '0' then
      if |s| >= 3 && Lower(s[1]) == 'b' then Digits(s[2..], 2)
      else if |s| >= 3 && Lower(s[1]) == 'o' then Digits(s[2..], 8)
      else if |s| >= 3 && Lower(s[1]) == 'x' then Digits(s[2..], 16)
      else Digits(s[1..], 8)
    else Digits(s, 10)
  }

  /** `strconv.ParseInt(s, 0, 64)`, with its error collapsed to `None`. */
  function ParseInt(s: string): (r: Option<int>)
    ensures r.Some? ==> -Int64Bound <= r.value < Int64Bound
    ensures s == [] ==> r.None?
  {
    if s == [] then None
    else
      var negative := s[0] == '-';
      var body := if s[0] == '-' || s[0] == '+' then s[1..] else s;
      match ParseUnsigned(body)
      case None => None
      case Some(u) =>
        if !negative && u < Int64Bound then Some(u)
        else if negative && u <= Int64Bound then Some(-(u as int))
        else None
  }

  /** The lower-case digit character for a value below 36. */
  function DigitChar(d: nat): (c: char)
    requires d < 36
    ensures DigitValue(c) == Some(d)
  {
    if d < 10 then ('0' as int + d) as char else ('a' as int + d - 10) as char
  }

  /** `n` written in base `base` without leading zeros. */
  function Format(n: nat, base: nat): (s: string)
    requires 2 <= base <= 36
    ensures |s| > 0
    ensures forall i | 0 <= i < |s| :: IsDigit(s[i], base)
    decreases n
  {
    if n < base then [DigitChar(n)]
    else
      DivisionShrinks(n, base);
      Format(n / base, base) + [DigitChar(n % base)]
  }

  /** Dividing by a base of at least 2 shrinks a positive number. */
  lemma DivisionShrinks(n: nat, base: nat)
    requires 2 <= base <= n
    ensures 0 < n / base < n
    ensures n % base < base
    ensures n == n / base * base + n % base
  {
  }

  /** Reading back what `Format` wrote gives the number. */
  lemma {:induction false} FormatValue(n: nat, base: nat)
    requires 2 <= base <= 36
    ensures Value(Format(n, base), base) == n
    decreases n
  {
    if n >= base {
      var s := Format(n, base);
      DivisionShrinks(n, base);
      FormatValue(n / base, base);
      assert s[..|s| - 1] == Format(n / base, base);
    }
  }

  /** A positive number's first digit is not `0`. */
  lemma {:induction false} FormatLeadingDigit(n: nat, base: nat)
    requires 2 <= base <= 36
    requires n > 0
    ensures Format(n, base)[0] != '0'
    decreases n
  {
    if n >= base {
      DivisionShrinks(n, base);
      FormatLeadingDigit(n / base, base);
    }
  }

  /** `ParseInt` inverts decimal formatting over the whole `int64` range. */
  lemma DecimalRoundTrip(n: int)
    requires -Int64Bound <= n < Int64Bound
    ensures ParseInt(if n < 0 then "-" + Format(-n, 10) else Format(n, 10)) == Some(n)
  {
    var m: nat := if n < 0 then -n else n;
    var digits := Format(m, 10);
    FormatValue(m, 10);
    if m > 0 {
      FormatLeadingDigit(m, 10);
    } else {
      assert digits == "0";
      assert Digits(digits[1..], 8) == Some(0);
    }
    if n < 0 {
      assert ("-" + digits)[1..] == digits;
    }
  }

  /** `ParseInt` inverts `0x`-prefixed hexadecimal formatting. */
  lemma HexRoundTrip(n: nat)
    requires n < Int64Bound
    ensures ParseInt("0x" + Format(n, 16)) == Some(n)
  {
    FormatValue(n, 16);
    assert ("0x" + Format(n, 16))[2..] == Format(n, 16);
  }
}

=== FILE: lifecycle.dfy ===
/** The singleton libVLC instance and the state around every native call: the
    instance (or its absence), the engine's last-error channel, and the log of
    native calls issued so far. Player and Media wrappers are nullable handles. */
module Lifecycle {
  import opened Wrappers
  import opened Opaque
  import opened Errors
  import N = Native
  import EventRegistry
  import ObjectRegistry

  /** The live instance. `Init` only ever stores a non-null engine handle,
      so the handle half of `assertInit`'s test is part of the type. */
  datatype Instance = Instance(
    handle: Token,
    events: EventRegistry.Registry,
    objects: ObjectRegistry.Registry)

  /** One native call, together with the subscription ids a dispatch fired
      by the engine at that moment would resolve. */
  datatype Effect = Effect(call: N.NativeCall, live: set<nat>)

  datatype World = World(inst: Option<Instance>, lastError: Option<string>, log: seq<Effect>)

  predicate ValidWorld(w: World) {
    w.inst.Some? ==>
      EventRegistry.Valid(w.inst.value.events) && ObjectRegistry.Valid(w.inst.value.objects)
  }

  /** The new state of the world and what the Go function returned. */
  datatype Outcome<+T> = Outcome(world: World, value: T)

  /** A wrapper after its `Release` method, and the error returned. */
  datatype Released<+T> = Released(wrapper: T, err: Option<Error>)

  /** A Player wraps a nullable `libvlc_media_player_t*`. */
  datatype Player = Player(handle: Option<Token>)

  /** A Media wraps a nullable `libvlc_media_t*`. */
  datatype Media = Media(handle: Option<Token>)

  /** An event manager borrowed from a live player. */
  datatype EventManager = EventManager(handle: Token)

  /** The instance guard: every bridge call against the singleton fails
      fast with ModuleNotInitialized when there is none. */
  function AssertInit(w: World): (err: Option<Error>)
    ensures err.None? <==> w.inst.Some?
    ensures err.Some? ==> err.value == ModuleNotInitialized
  {
    if w.inst.None? then Some(ModuleNotInitialized) else None
  }

  /** The player guard: a nil handle fails with PlayerNotInitialized. */
  function PlayerAssertInit(p: Player): (err: Option<Error>)
    ensures err.None? <==> p.handle.Some?
    ensures err.Some? ==> err.value == PlayerNotInitialized
  {
    if p.handle.None? then Some(PlayerNotInitialized) else None
  }

  /** The media guard: a nil handle fails with MediaNotInitialized. */
  function MediaAssertInit(m: Media): (err: Option<Error>)
    ensures err.None? <==> m.handle.Some?
    ensures err.Some? ==> err.value == MediaNotInitialized
  {
    if m.handle.None? then Some(MediaNotInitialized) else None
  }

  /** The subscription ids a dispatch would currently resolve. */
  function Live(w: World): set<nat> {
    if w.inst.Some? then w.inst.value.events.contexts.Keys else {}
  }

  /** The calls recorded in a stretch of the log. */
  function Calls(effects: seq<Effect>): (calls: seq<N.NativeCall>)
    ensures |calls| == |effects|
    ensures forall j | 0 <= j < |effects| :: calls[j] == effects[j].call
  {
    seq(|effects|, j requires 0 <= j < |effects| => effects[j].call)
  }

  /** A log that extends an extension of `first` extends `first`. */
  lemma LogPrefixChain(first: seq<Effect>, middle: seq<Effect>, last: seq<Effect>)
    requires |first| <= |middle| && middle[..|first|] == first
    requires |middle| <= |last| && last[..|middle|] == middle
    ensures last[..|first|] == first
  {
    assert last[..|first|] == last[..|middle|][..|first|];
  }

  /** Issues a native call whose error the bridge does not read. */
  function Issue(w: World, call: N.NativeCall): World {
    w.(log := w.log + [Effect(call, Live(w))])
  }

  /** Issues a native call after which the engine's last-error channel
      holds `errAfter` (an arbitrary value: the engine decides). */
  function IssueReporting(w: World, call: N.NativeCall, errAfter: Option<string>): World {
    Issue(w, call).(lastError := errAfter)
  }

  /** The channel's message as an error, if there is one: what `getError`
      returns for a channel holding `errAfter`. */
  function Reported(errAfter: Option<string>): Option<Error> {
    if errAfter.Some? then Some(Engine(errAfter.value)) else None
  }

  /** The engine's read-and-clear error channel: the message, if any, becomes
      an Engine error and the channel is cleared. */
  function GetError(w: World): (o: Outcome<Option<Error>>)
    ensures o.value.Some? <==> w.lastError.Some?
    ensures o.value.Some? ==> o.value.value == Engine(w.lastError.value)
    ensures o.world.inst == w.inst
    ensures o.world.lastError.None?
    ensures o.world.log == w.log + [Effect(N.ErrorMessage, Live(w))]
                          + (if w.lastError.Some? then [Effect(N.ClearError, Live(w))] else [])
  {
    var w1 := Issue(w, N.ErrorMessage);
    if w.lastError.None? then Outcome(w1, None)
    else Outcome(Issue(w1, N.ClearError).(lastError := None), Some(Engine(w.lastError.value)))
  }

  /** Reads the channel and falls back to `default` when it is empty. */
  function FailWith(w: World, default: Error): (o: Outcome<Error>)
    ensures o.world.inst == w.inst
    ensures o.value == (if w.lastError.Some? then Engine(w.lastError.value) else default)
  {
    var g := GetError(w);
    var e := ErrOrDefault(g.value, Some(default));
    Outcome(g.world, e.value)
  }

  /** The file name appended to the search directory before loading. */
  const LibraryFile: string := "\\libvlc.dll"

  /** `Init`: a no-op when an instance exists; otherwise loads the shared
      library from the given directory, creates the engine and installs an
      instance with empty registries. `loaded` and `created` are the native
      answers; `errAfter` is the channel after engine creation. */
  function Init(w: World, vlcPath: string, args: seq<string>, loaded: bool,
                created: Option<Token>, errAfter: Option<string>): (o: Outcome<Option<Error>>)
    ensures w.inst.Some? ==> o == Outcome(w, None)
    ensures w.inst.None? ==>
              && |o.world.log| > |w.log|
              && o.world.log[..|w.log|] == w.log
              && o.world.log[|w.log|].call == N.LoadLibrary(vlcPath + LibraryFile)
    ensures w.inst.None? && !loaded ==>
              o.value == Some(LibraryLoad) && o.world == Issue(w, N.LoadLibrary(vlcPath + LibraryFile))
    ensures w.inst.None? && loaded ==>
              |o.world.log| > |w.log| + 1 && o.world.log[|w.log| + 1].call == N.InstanceNew(args)
    ensures w.inst.None? && loaded && created.None? ==>
              o.value == Some(if errAfter.Some? then Engine(errAfter.value) else ModuleInitialize)
    ensures w.inst.None? && loaded && created.Some? ==>
              && o.world.inst.Some?
              && o.world.inst.value.handle == created.value
              && o.world.inst.value.events.sequence == 0
              && (forall id :: EventRegistry.Get(o.world.inst.value.events, id).None?)
              && o.world.inst.value.objects == map[]
    ensures o.value.None? <==> o.world.inst.Some?
    ensures ValidWorld(w) ==> ValidWorld(o.world)
  {
    if w.inst.Some? then Outcome(w, None)
    else
      var w1 := Issue(w, N.LoadLibrary(vlcPath + LibraryFile));
      if !loaded then Outcome(w1, Some(LibraryLoad))
      else
        var w2 := IssueReporting(w1, N.InstanceNew(args), errAfter);
        if created.None? then
          var f := FailWith(w2, ModuleInitialize);
          Outcome(f.world, Some(f.value))
        else
          Outcome(w2.(inst := Some(Instance(created.value, EventRegistry.New(), map[]))), None)
  }

  /** `Release`: a no-op when there is no instance; otherwise releases the
      engine handle, clears the singleton and reports the channel. */
  function Release(w: World, errAfter: Option<string>): (o: Outcome<Option<Error>>)
    ensures o.world.inst.None?
    ensures w.inst.None? ==> o == Outcome(w, None)
    ensures w.inst.Some? ==>
              && |o.world.log| > |w.log|
              && o.world.log[..|w.log|] == w.log
              && o.world.log[|w.log|].call == N.InstanceRelease(w.inst.value.handle)
              && o.value == Reported(errAfter)
    ensures ValidWorld(o.world)
  {
    if w.inst.None? then Outcome(w, None)
    else
      var w1 := IssueReporting(w, N.InstanceRelease(w.inst.value.handle), errAfter);
      GetError(w1.(inst := None))
  }

  /** A successful `Init` followed by `Release` returns to the uninitialised
      state, and a second `Release` afterwards issues no native call. */
  lemma InitReleaseCycle(w: World, vlcPath: string, args: seq<string>, created: Token,
                         errAfter: Option<string>, errAfter2: Option<string>, errAfter3: Option<string>)
    requires w.inst.None?
    ensures var i := Init(w, vlcPath, args, true, Some(created), errAfter);
      && i.value.None?
      && i.world.inst.Some?
      && var r := Release(i.world, errAfter2);
         && r.world.inst.None?
         && Release(r.world, errAfter3) == Outcome(r.world, None)
  {
  }
}

=== FILE: media_teardown.dfy ===
/** Releasing a Media: its native user-data pointer, when it resolves to a
    `mediaData` record in the object registry, loses one reference, and so
    does the reader object that record chains to; then the native media
    handle is released and the wrapper nulled. */
module MediaTeardown {
  import opened Wrappers
  import opened Opaque
  import opened Errors
  import N = Native
  import ObjectRegistry
  import opened Lifecycle

  /** The user-data pointer of a media and the reader pointer it chains to. */
  datatype UserDataRef = UserDataRef(id: Token, readerId: Option<Token>)

  /** The object registry of a live world. */
  function Objects(w: World): ObjectRegistry.Registry
    requires w.inst.Some?
  {
    w.inst.value.objects
  }

  /** The pointer resolves to a `mediaData` record. */
  predicate HoldsMediaData(w: World, pointer: Option<Token>) {
    && w.inst.Some?
    && pointer.Some?
    && pointer.value in Objects(w)
    && Objects(w)[pointer.value].data.MediaData?
  }

  /** `getUserData`: nothing without an instance; otherwise asks the engine
      for the media's user-data pointer (`pointer` is its answer) and
      returns it with its reader only if it resolves to a `mediaData`. */
  function GetUserData(w: World, media: Token, pointer: Option<Token>): (o: Outcome<Option<UserDataRef>>)
    ensures w.inst.None? ==> o == Outcome(w, None)
    ensures w.inst.Some? ==> o.world == Issue(w, N.MediaGetUserData(media))
    ensures o.value.Some? <==> HoldsMediaData(w, pointer)
    ensures o.value.Some? ==>
              && pointer == Some(o.value.value.id)
              && o.value.value.readerId == Objects(w)[pointer.value].data.readerId
  {
    if w.inst.None? then Outcome(w, None)
    else
      var w1 := Issue(w, N.MediaGetUserData(media));
      match ObjectRegistry.Get(Objects(w), pointer)
      case Some(MediaData(reader, _)) => Outcome(w1, Some(UserDataRef(pointer.value, reader)))
      case _ => Outcome(w1, None)
  }

  /** The `free` effect a decrement of `id` logs, if any. */
  function FreeEffect(w: World, id: Option<Token>): seq<Effect>
    requires w.inst.Some?
  {
    if id.Some? && id.value in Objects(w) && Objects(w)[id.value].refs == 1
    then [Effect(N.Free(id.value), Live(w))] else []
  }

  /** Drops one reference in a live world, logging the `free` it issues. */
  function DecRefs(w: World, id: Option<Token>): (w': World)
    requires w.inst.Some?
    ensures w'.inst.Some?
    ensures w'.inst.value == w.inst.value.(objects := ObjectRegistry.DecRefs(Objects(w), id).objects)
    ensures w'.lastError == w.lastError
    ensures w'.log == w.log + FreeEffect(w, id)
  {
    var d := ObjectRegistry.DecRefs(Objects(w), id);
    var w1 := w.(inst := Some(w.inst.value.(objects := d.objects)));
    if d.freed.Some? then Issue(w1, N.Free(d.freed.value)) else w1
  }

  /** `deleteUserData`: when the media's user data is a `mediaData`, drops
      one reference to the reader it chains to and then one to itself. */
  function DeleteUserData(w: World, media: Token, pointer: Option<Token>): (w': World)
    ensures w.inst.None? ==> w' == w
    ensures w.inst.Some? ==>
              && w'.inst.Some?
              && w'.inst.value.handle == w.inst.value.handle
              && w'.inst.value.events == w.inst.value.events
    ensures w'.lastError == w.lastError
    ensures w.inst.Some? && !HoldsMediaData(w, pointer) ==> w' == Issue(w, N.MediaGetUserData(media))
    ensures ValidWorld(w) ==> ValidWorld(w')
    ensures |w'.log| >= |w.log| && w'.log[..|w.log|] == w.log
  {
    var g := GetUserData(w, media, pointer);
    if g.value.None? then g.world
    else DecRefs(DecRefs(g.world, g.value.value.readerId), Some(g.value.value.id))
  }

  /** What `deleteUserData` does to the object registry and the log when the
      user data is a `mediaData` chaining to a distinct reader (or to none):
      each of the two loses exactly one reference, a pointer whose count
      reaches zero is freed (the reader's before the media's own), and every
      other entry is untouched. */
  lemma DeleteUserDataDropsChain(w: World, media: Token, pointer: Option<Token>)
    requires HoldsMediaData(w, pointer)
    requires Objects(w)[pointer.value].data.readerId != pointer
    ensures var w' := DeleteUserData(w, media, pointer);
      var before := Objects(w);
      var after := Objects(w');
      var reader := before[pointer.value].data.readerId;
      && (forall k | Some(k) != pointer && Some(k) != reader ::
            (k in after <==> k in before) && (k in before ==> after[k] == before[k]))
      && ObjectRegistry.DroppedOnce(before, after, pointer.value)
      && (reader.Some? ==> ObjectRegistry.DroppedOnce(before, after, reader.value))
      && w'.log[..|w.log|] == w.log
      && Calls(w'.log[|w.log|..])
         == [N.MediaGetUserData(media)]
            + (if reader.Some? && reader.value in before && before[reader.value].refs == 1
               then [N.Free(reader.value)] else [])
            + (if before[pointer.value].refs == 1 then [N.Free(pointer.value)] else [])
  {
    var g := GetUserData(w, media, pointer);
    var reader := Objects(w)[pointer.value].data.readerId;
    var w1 := DecRefs(g.world, reader);
    var w2 := DecRefs(w1, pointer);
    assert DeleteUserData(w, media, pointer) == w2;
    assert w2.log == w.log + [Effect(N.MediaGetUserData(media), Live(w))]
                    + FreeEffect(g.world, reader) + FreeEffect(w1, pointer);
  }

  /** The same for a `mediaData` whose reader is its own pointer: that one
      entry loses two references, and is freed exactly once, when its count
      was at most two. */
  lemma DeleteUserDataDropsSelfChain(w: World, media: Token, pointer: Option<Token>)
    requires ValidWorld(w) && HoldsMediaData(w, pointer)
    requires Objects(w)[pointer.value].data.readerId == pointer
    ensures var w' := DeleteUserData(w, media, pointer);
      var before := Objects(w);
      var after := Objects(w');
      && (forall k | Some(k) != pointer ::
            (k in after <==> k in before) && (k in before ==> after[k] == before[k]))
      && (before[pointer.value].refs <= 2 ==> pointer.value !in after)
      && (before[pointer.value].refs > 2 ==>
            && pointer.value in after
            && after[pointer.value] == before[pointer.value].(refs := before[pointer.value].refs - 2))
      && w'.log[..|w.log|] == w.log
      && Calls(w'.log[|w.log|..])
         == [N.MediaGetUserData(media)] + (if before[pointer.value].refs <= 2 then [N.Free(pointer.value)] else [])
  {
    var g := GetUserData(w, media, pointer);
    var w1 := DecRefs(g.world, pointer);
    var w2 := DecRefs(w1, pointer);
    assert DeleteUserData(w, media, pointer) == w2;
    assert w2.log == w.log + [Effect(N.MediaGetUserData(media), Live(w))]
                    + FreeEffect(g.world, pointer) + FreeEffect(w1, pointer);
  }

  /** `Media.release`: deletes the user data, releases the native handle
      and nulls the wrapper. Its callers only pass a live media. */
  function ReleaseHandle(w: World, m: Media, pointer: Option<Token>): (o: Outcome<Media>)
    requires m.handle.Some?
    ensures o.value.handle.None?
    ensures o.world == Issue(DeleteUserData(w, m.handle.value, pointer), N.MediaRelease(m.handle.value))
    ensures ValidWorld(w) ==> ValidWorld(o.world)
  {
    var w1 := DeleteUserData(w, m.handle.value, pointer);
    Outcome(Issue(w1, N.MediaRelease(m.handle.value)), Media(None))
  }

  /** `Media.Release`: on a nil handle returns nil and issues no native call;
      otherwise tears the media down and reports the channel, which holds
      `errAfter` after the native release. The wrapper ends up nil. */
  function ReleaseMedia(w: World, m: Media, pointer: Option<Token>, errAfter: Option<string>)
    : (o: Outcome<Released<Media>>)
    ensures o.value.wrapper.handle.None?
    ensures m.handle.None? ==> o == Outcome(w, Released(m, None))
    ensures m.handle.Some? ==>
              && o.value.err == Reported(errAfter)
              && var torn := DeleteUserData(w, m.handle.value, pointer);
                 && |o.world.log| > |torn.log|
                 && o.world.log[..|torn.log|] == torn.log
                 && o.world.log[|torn.log|].call == N.MediaRelease(m.handle.value)
                 && o.world.inst == torn.inst
    ensures ValidWorld(w) ==> ValidWorld(o.world)
  {
    if m.handle.None? then Outcome(w, Released(m, None))
    else
      var r := ReleaseHandle(w, m, pointer);
      var g := GetError(r.world.(lastError := errAfter));
      Outcome(g.world, Released(r.value, g.value))
  }

  /** Releasing a media twice: the second release returns nil and issues no
      native call. */
  lemma ReleaseMediaTwice(w: World, m: Media, pointer: Option<Token>, errAfter: Option<string>,
                          pointer2: Option<Token>, errAfter2: Option<string>)
    ensures var first := ReleaseMedia(w, m, pointer, errAfter);
      ReleaseMedia(first.world, first.value.wrapper, pointer2, errAfter2)
        == Outcome(first.world, Released(first.value.wrapper, None))
  {
  }

  /** The full cascade for a media whose user data is the last reference to
      itself and chains to the last reference of a distinct reader: the
      reader is freed, then the user data, then the media handle released. */
  lemma TeardownCascade(w: World, media: Token, id: Token, reader: Token, payload: Value,
                        errAfter: Option<string>)
    requires ValidWorld(w) && w.inst.Some?
    requires id != reader
    requires id in Objects(w) && Objects(w)[id] == ObjectRegistry.ObjCtx(1, ObjectRegistry.MediaData(Some(reader), payload))
    requires reader in Objects(w) && Objects(w)[reader].refs == 1
    ensures var o := ReleaseMedia(w, Media(Some(media)), Some(id), errAfter);
      && id !in Objects(o.world) && reader !in Objects(o.world)
      && Calls(o.world.log[|w.log|..])[..4]
         == [N.MediaGetUserData(media), N.Free(reader), N.Free(id), N.MediaRelease(media)]
  {
  }
}

=== FILE: native.dfy ===
/** The calls the bridge issues into the native engine: every libvlc call,
    and the `free` of an object-registry pointer. The cgo string marshalling
    (`C.CString` and the `C.free` of those strings) is not among them. The
    model never runs a call: each becomes one entry of the world's effect
    log, so that "no native call was made" and "this call came before that
    one" can be stated. */
module Native {
  import opened Opaque

  datatype NativeCall =
    | LoadLibrary(path: string)
    | InstanceNew(args: seq<string>)
    | InstanceRelease(instance: Token)
    | ErrorMessage
    | ClearError
    | PlayerNew(instance: Token)
    | PlayerRelease(player: Token)
    | PlayerIsPlaying(player: Token)
    | PlayerPlay(player: Token)
    | PlayerStop(player: Token)
    | PlayerSetMedia(player: Token, media: Token)
    | PlayerGetMedia(player: Token)
    | PlayerEventManager(player: Token)
    | MediaNewPath(instance: Token, path: string)
    | MediaNewLocation(instance: Token, location: string)
    | MediaRelease(media: Token)
    | MediaGetUserData(media: Token)
    | EventAttach(manager: Token, event: int, id: nat)
    | EventDetach(manager: Token, event: int, id: nat)
    | Free(block: Token)
}

=== FILE: object_registry.dfy ===
/** The registry of reference-counted objects shared with native code: an
    opaque native-visible pointer resolves to a count and a Go payload. The
    wrapper has no insert or increment, so the model starts from an
    arbitrary registry in which every entry holds at least one reference. */
module ObjectRegistry {
  import opened Wrappers
  import opened Opaque

  /** `refs` is a Go `uint` (64 bits on the target): decrementing 0 wraps. */
  const UintModulus: nat := 0x1_0000_0000_0000_0000

  /** The payload behind a pointer. The bridge only ever inspects a
      `mediaData` record, which chains to a reader object's pointer. */
  datatype ObjData =
    | MediaData(readerId: Option<Token>, userData: Value)
    | OtherData(payload: Value)

  datatype ObjCtx = ObjCtx(refs: nat, data: ObjData)

  type Registry = map<Token, ObjCtx>

  /** Every live entry holds between 1 and the `uint` maximum references. */
  predicate Valid(objects: Registry) {
    forall id | id in objects :: 0 < objects[id].refs < UintModulus
  }

  /** Go's `refs--` on a `uint`. */
  function Decrement(refs: nat): nat {
    if refs == 0 then UintModulus - 1 else refs - 1
  }

  /** The payload stored under a pointer; a nil or unknown pointer is not found. */
  function Get(objects: Registry, id: Option<Token>): (found: Option<ObjData>)
    ensures found.Some? <==> id.Some? && id.value in objects
    ensures found.Some? ==> found.value == objects[id.value].data
  {
    if id.Some? && id.value in objects then Some(objects[id.value].data) else None
  }

  /** The registry after a decrement, and the pointer handed to `free`, if any. */
  datatype Dropped = Dropped(objects: Registry, freed: Option<Token>)

  /** Drops one reference. A nil or absent pointer is a silent no-op; an
      entry whose count reaches zero is removed and its pointer freed; no
      other entry changes. */
  function DecRefs(objects: Registry, id: Option<Token>): (d: Dropped)
    ensures id.None? || id.value !in objects ==> d == Dropped(objects, None)
    ensures id.Some? && id.value in objects && objects[id.value].refs == 1 ==>
              id.value !in d.objects && d.freed == id
    ensures id.Some? && id.value in objects && objects[id.value].refs != 1 ==>
              && d.freed.None?
              && id.value in d.objects
              && d.objects[id.value].data == objects[id.value].data
              && d.objects[id.value].refs == Decrement(objects[id.value].refs)
    ensures forall k | id != Some(k) ::
              (k in d.objects <==> k in objects) && (k in objects ==> d.objects[k] == objects[k])
    ensures Valid(objects) ==> Valid(d.objects)
  {
    if id.None? || id.value !in objects then Dropped(objects, None)
    else
      var ctx := objects[id.value];
      var refs := Decrement(ctx.refs);
      if refs == 0 then Dropped(objects - {id.value}, id)
      else Dropped(objects[id.value := ctx.(refs := refs)], None)
  }

  /** `after` is `before` with one reference to `k` dropped. */
  predicate DroppedOnce(before: Registry, after: Registry, k: Token) {
    if k !in before then k !in after
    else if before[k].refs == 1 then k !in after
    else k in after && after[k] == before[k].(refs := Decrement(before[k].refs))
  }

  datatype DroppedAll = DroppedAll(objects: Registry, freed: seq<Token>)

  /** `n` decrements of the same pointer in a row, collecting every free. */
  function DecRefsTimes(objects: Registry, id: Token, n: nat): (d: DroppedAll)
    decreases n
  {
    if n == 0 then DroppedAll(objects, [])
    else
      var once := DecRefs(objects, Some(id));
      var rest := DecRefsTimes(once.objects, id, n - 1);
      DroppedAll(rest.objects, (if once.freed.Some? then [once.freed.value] else []) + rest.freed)
  }

  /** An entry holding `refs` references survives `refs - 1` decrements with
      its count lowered by that many, is freed exactly once by the last one,
      and further decrements are no-ops: never a double free. */
  lemma {:induction false} FreedAfterExactlyRefs(objects: Registry, id: Token, n: nat)
    requires Valid(objects)
    requires id in objects
    ensures var d := DecRefsTimes(objects, id, n);
      && Valid(d.objects)
      && (n < objects[id].refs ==>
            && d.freed == []
            && id in d.objects
            && d.objects[id] == objects[id].(refs := objects[id].refs - n))
      && (n >= objects[id].refs ==> d.freed == [id] && id !in d.objects)
      && (forall k | k != id :: (k in d.objects <==> k in objects) && (k in objects ==> d.objects[k] == objects[k]))
    decreases n
  {
    if n > 0 {
      var once := DecRefs(objects, Some(id));
      if objects[id].refs == 1 {
        AbsentStaysAbsent(once.objects, id, n - 1);
      } else {
        FreedAfterExactlyRefs(once.objects, id, n - 1);
      }
    }
  }

  /** Once a pointer is gone, decrementing it any number of times changes
      nothing and frees nothing. */
  lemma {:induction false} AbsentStaysAbsent(objects: Registry, id: Token, n: nat)
    requires id !in objects
    ensures DecRefsTimes(objects, id, n) == DroppedAll(objects, [])
    decreases n
  {
    if n > 0 {
      AbsentStaysAbsent(objects, id, n - 1);
    }
  }
}

=== FILE: opaque.dfy ===
/** Values the bridge passes around without looking inside them. */
module Opaque {

  /** A non-null native pointer (a libvlc handle, an event manager, a
      user-data block). A nullable pointer is an `Option<Token>`. */
  datatype Token = Token(address: nat)

  /** A Go `interface{}` payload handed through the bridge untouched. */
  datatype Value = Value(tag: nat)

  /** A non-nil Go function value; a nil callback is `None`. */
  datatype Callback = Callback(tag: nat)
}

=== FILE: playback.dfy ===
/** Player operations and media loading. Each native answer is a parameter;
    `errAfter`-style parameters are the engine's last-error channel after the
    native call they follow. */
module Playback {
  import opened Wrappers
  import opened Opaque
  import opened Errors
  import N = Native
  import opened Lifecycle
  import MediaTeardown

  /** `NewPlayer`: fails without an instance; otherwise creates a native
      player (`created` is the engine's answer), and a null answer becomes the
      channel's message or PlayerCreate. */
  function NewPlayer(w: World, created: Option<Token>, errAfter: Option<string>)
    : (o: Outcome<Result<Player, Error>>)
    ensures w.inst.None? ==> o == Outcome(w, Err(ModuleNotInitialized))
    ensures w.inst.Some? ==>
              && o.world.inst == w.inst
              && |o.world.log| > |w.log|
              && o.world.log[..|w.log|] == w.log
              && o.world.log[|w.log|].call == N.PlayerNew(w.inst.value.handle)
    ensures w.inst.Some? && created.Some? ==> o.value == Ok(Player(created))
    ensures w.inst.Some? && created.None? ==>
              o.value == Err(if errAfter.Some? then Engine(errAfter.value) else PlayerCreate)
    ensures o.value.Ok? ==> o.value.value.handle.Some?
  {
    if w.inst.None? then Outcome(w, Err(ModuleNotInitialized))
    else
      var w1 := IssueReporting(w, N.PlayerNew(w.inst.value.handle), errAfter);
      if created.None? then
        var f := FailWith(w1, PlayerCreate);
        Outcome(f.world, Err(f.value))
      else Outcome(w1, Ok(Player(created)))
  }

  /** `Player.Release`: on a nil handle returns nil with no native call;
      otherwise releases the native player, nulls the handle and reports the
      channel. Either way the wrapper ends up nil. */
  function ReleasePlayer(w: World, p: Player, errAfter: Option<string>): (o: Outcome<Released<Player>>)
    ensures o.value.wrapper.handle.None?
    ensures p.handle.None? ==> o == Outcome(w, Released(p, None))
    ensures p.handle.Some? ==>
              && o.world.inst == w.inst
              && |o.world.log| > |w.log|
              && o.world.log[..|w.log|] == w.log
              && o.world.log[|w.log|].call == N.PlayerRelease(p.handle.value)
              && o.value.err == Reported(errAfter)
  {
    if p.handle.None? then Outcome(w, Released(p, None))
    else
      var w1 := IssueReporting(w, N.PlayerRelease(p.handle.value), errAfter);
      var g := GetError(w1);
      Outcome(g.world, Released(Player(None), g.value))
  }

  /** `IsPlaying`: false, with no native call, for a nil player; otherwise
      the engine's answer `playing`. */
  function IsPlaying(w: World, p: Player, playing: bool): (o: Outcome<bool>)
    ensures p.handle.None? ==> o == Outcome(w, false)
    ensures p.handle.Some? ==> o == Outcome(Issue(w, N.PlayerIsPlaying(p.handle.value)), playing)
  {
    if p.handle.None? then Outcome(w, false)
    else Outcome(Issue(w, N.PlayerIsPlaying(p.handle.value)), playing)
  }

  /** `Play`: fails on a nil player; succeeds without a native play call when
      the player already plays; otherwise issues the play call, whose negative
      return code `rc` reports the channel (which may be empty). */
  function Play(w: World, p: Player, playing: bool, rc: int, errAfter: Option<string>)
    : (o: Outcome<Option<Error>>)
    ensures p.handle.None? ==> o == Outcome(w, Some(PlayerNotInitialized))
    ensures p.handle.Some? ==>
              && o.world.inst == w.inst
              && |o.world.log| > |w.log|
              && o.world.log[..|w.log|] == w.log
              && o.world.log[|w.log|].call == N.PlayerIsPlaying(p.handle.value)
    ensures p.handle.Some? && playing ==>
              o.value.None? && Calls(o.world.log[|w.log|..]) == [N.PlayerIsPlaying(p.handle.value)]
    ensures p.handle.Some? && !playing ==>
              && |o.world.log| > |w.log| + 1
              && o.world.log[|w.log| + 1].call == N.PlayerPlay(p.handle.value)
              && o.value == (if rc < 0 then Reported(errAfter) else None)
  {
    if p.handle.None? then Outcome(w, Some(PlayerNotInitialized))
    else
      var q := IsPlaying(w, p, playing);
      if q.value then Outcome(q.world, None)
      else
        var w1 := IssueReporting(q.world, N.PlayerPlay(p.handle.value), errAfter);
        if rc < 0 then GetError(w1) else Outcome(w1, None)
  }

  /** `Stop`: fails on a nil player; otherwise stops and reports the channel. */
  function Stop(w: World, p: Player, errAfter: Option<string>): (o: Outcome<Option<Error>>)
    ensures p.handle.None? ==> o == Outcome(w, Some(PlayerNotInitialized))
    ensures p.handle.Some? ==>
              && o.world.inst == w.inst
              && |o.world.log| > |w.log|
              && o.world.log[..|w.log|] == w.log
              && o.world.log[|w.log|].call == N.PlayerStop(p.handle.value)
              && o.value == Reported(errAfter)
  {
    if p.handle.None? then Outcome(w, Some(PlayerNotInitialized))
    else GetError(IssueReporting(w, N.PlayerStop(p.handle.value), errAfter))
  }

  /** `Player.Media`: fails on a nil player; "no media, no error" when the
      engine has none bound (`bound` is its answer); otherwise drops the
      reference the engine added and wraps the handle. */
  function CurrentMedia(w: World, p: Player, bound: Option<Token>)
    : (o: Outcome<Result<Option<Media>, Error>>)
    ensures p.handle.None? ==> o == Outcome(w, Err(PlayerNotInitialized))
    ensures p.handle.Some? && bound.None? ==>
              o == Outcome(Issue(w, N.PlayerGetMedia(p.handle.value)), Ok(None))
    ensures p.handle.Some? && bound.Some? ==>
              && o.value == Ok(Some(Media(bound)))
              && o.world.inst == w.inst
              && |o.world.log| >= |w.log|
              && o.world.log[..|w.log|] == w.log
              && Calls(o.world.log[|w.log|..])
                 == [N.PlayerGetMedia(p.handle.value), N.MediaRelease(bound.value)]
  {
    if p.handle.None? then Outcome(w, Err(PlayerNotInitialized))
    else
      var w1 := Issue(w, N.PlayerGetMedia(p.handle.value));
      if bound.None? then Outcome(w1, Ok(None))
      else
        var w2 := Issue(w1, N.MediaRelease(bound.value));
        assert w2.log[|w.log|..] == [w1.log[|w.log|], w2.log[|w1.log|]];
        Outcome(w2, Ok(Some(Media(bound))))
  }

  /** `Player.EventManager`: fails on a nil player, and with
      MissingEventManager when the engine answers null. */
  function GetEventManager(w: World, p: Player, manager: Option<Token>)
    : (o: Outcome<Result<EventManager, Error>>)
    ensures p.handle.None? ==> o == Outcome(w, Err(PlayerNotInitialized))
    ensures p.handle.Some? ==> o.world == Issue(w, N.PlayerEventManager(p.handle.value))
    ensures p.handle.Some? && manager.None? ==> o.value == Err(MissingEventManager)
    ensures p.handle.Some? && manager.Some? ==> o.value == Ok(EventManager(manager.value))
  {
    if p.handle.None? then Outcome(w, Err(PlayerNotInitialized))
    else
      var w1 := Issue(w, N.PlayerEventManager(p.handle.value));
      if manager.None? then Outcome(w1, Err(MissingEventManager))
      else Outcome(w1, Ok(EventManager(manager.value)))
  }

  /** The engine's answers to one `newMedia` call. */
  datatype MediaAnswers = MediaAnswers(
    statErr: Option<string>,    // the existence check's error, local paths only
    created: Option<Token>,     // the media handle the engine creates
    createErr: Option<string>)  // the channel after creation

  /** The native creation call `newMedia` issues for this path. */
  function CreateCall(w: World, path: string, local: bool): N.NativeCall
    requires w.inst.Some?
  {
    if local then N.MediaNewPath(w.inst.value.handle, path)
    else N.MediaNewLocation(w.inst.value.handle, path)
  }

  /** `newMedia`: fails without an instance; a local path whose existence
      check fails returns that error before any libvlc call; otherwise the
      engine creates the media from a path or a location, and a null answer
      becomes the channel's message or MediaCreate. */
  function NewMedia(w: World, path: string, local: bool, answers: MediaAnswers)
    : (o: Outcome<Result<Media, Error>>)
    ensures w.inst.None? ==> o == Outcome(w, Err(ModuleNotInitialized))
    ensures w.inst.Some? && local && answers.statErr.Some? ==>
              o == Outcome(w, Err(FileSystem(answers.statErr.value)))
    ensures w.inst.Some? && (!local || answers.statErr.None?) ==>
              && o.world.inst == w.inst
              && |o.world.log| > |w.log|
              && o.world.log[..|w.log|] == w.log
              && o.world.log[|w.log|].call
                 == CreateCall(w, path, local)
              && (answers.created.Some? ==>
                    o.value == Ok(Media(answers.created)) && |o.world.log| == |w.log| + 1)
              && (answers.created.None? ==>
                    o.value == Err(if answers.createErr.Some? then Engine(answers.createErr.value) else MediaCreate))
    ensures o.value.Ok? ==> o.value.value.handle == answers.created && answers.created.Some?
    ensures o.world.inst == w.inst
    ensures |o.world.log| >= |w.log| && o.world.log[..|w.log|] == w.log
  {
    if w.inst.None? then Outcome(w, Err(ModuleNotInitialized))
    else if local && answers.statErr.Some? then Outcome(w, Err(FileSystem(answers.statErr.value)))
    else
      var call := CreateCall(w, path, local);
      var w1 := IssueReporting(w, call, answers.createErr);
      if answers.created.None? then
        var f := FailWith(w1, MediaCreate);
        Outcome(f.world, Err(f.value))
      else Outcome(w1, Ok(Media(answers.created)))
  }

  /** `setMedia`: fails on a nil player, then on a nil media; otherwise binds
      the media and reports the channel (`setErr` after the call). */
  function SetMedia(w: World, p: Player, m: Media, setErr: Option<string>): (o: Outcome<Option<Error>>)
    ensures p.handle.None? ==> o == Outcome(w, Some(PlayerNotInitialized))
    ensures p.handle.Some? && m.handle.None? ==> o == Outcome(w, Some(MediaNotInitialized))
    ensures p.handle.Some? && m.handle.Some? ==>
              && o.world.inst == w.inst
              && |o.world.log| > |w.log|
              && o.world.log[..|w.log|] == w.log
              && o.world.log[|w.log|].call == N.PlayerSetMedia(p.handle.value, m.handle.value)
              && o.value == Reported(setErr)
    ensures o.world.inst == w.inst
    ensures |o.world.log| >= |w.log| && o.world.log[..|w.log|] == w.log
  {
    if p.handle.None? then Outcome(w, Some(PlayerNotInitialized))
    else if m.handle.None? then Outcome(w, Some(MediaNotInitialized))
    else GetError(IssueReporting(w, N.PlayerSetMedia(p.handle.value, m.handle.value), setErr))
  }

  /** The second half of `loadMedia`: binds a created media to the player;
      when the binding fails, releases that media (`pointer` is the engine's
      answer for its user data) and returns only the bind's error. */
  function BindOrRelease(w: World, p: Player, m: Media, setErr: Option<string>, pointer: Option<Token>)
    : (o: Outcome<Result<Media, Error>>)
    requires m.handle.Some?
    ensures o.value.Ok? <==> p.handle.Some? && setErr.None?
    ensures o.value.Ok? ==> o.value.value == m
    ensures p.handle.None? ==> o.value == Err(PlayerNotInitialized)
    ensures p.handle.Some? && setErr.Some? ==> o.value == Err(Engine(setErr.value))
    ensures |o.world.log| > |w.log| && o.world.log[..|w.log|] == w.log
    ensures o.value.Err? ==> o.world.log[|o.world.log| - 1].call == N.MediaRelease(m.handle.value)
    ensures ValidWorld(w) ==> ValidWorld(o.world)
  {
    var s := SetMedia(w, p, m, setErr);
    if s.value.Some? then
      var r := MediaTeardown.ReleaseHandle(s.world, m, pointer);
      LogPrefixChain(w.log, s.world.log, r.world.log);
      Outcome(r.world, Err(s.value.value))
    else
      Outcome(s.world, Ok(m))
  }

  /** `loadMedia`: creates a media and binds it to the player. When binding
      fails, the just-created media is released and only the error is
      returned. */
  function LoadMedia(w: World, p: Player, path: string, local: bool, answers: MediaAnswers,
                     setErr: Option<string>, pointer: Option<Token>): (o: Outcome<Result<Media, Error>>)
    ensures w.inst.None? ==> o == Outcome(w, Err(ModuleNotInitialized))
    ensures local && answers.statErr.Some? ==> o.world == w && o.value.Err?
    ensures o.value.Ok? ==> o.value.value.handle == answers.created && answers.created.Some?
    ensures w.inst.Some? && (!local || answers.statErr.None?) && answers.created.None? ==>
              o.value == Err(if answers.createErr.Some? then Engine(answers.createErr.value) else MediaCreate)
    ensures w.inst.Some? && (!local || answers.statErr.None?) && answers.created.Some? ==>
              && (o.value.Ok? <==> p.handle.Some? && setErr.None?)
              && (p.handle.None? ==> o.value == Err(PlayerNotInitialized))
              && (p.handle.Some? && setErr.Some? ==> o.value == Err(Engine(setErr.value)))
    ensures |o.world.log| >= |w.log| && o.world.log[..|w.log|] == w.log
    ensures ValidWorld(w) ==> ValidWorld(o.world)
  {
    var made := NewMedia(w, path, local, answers);
    if made.value.Err? then made
    else
      var b := BindOrRelease(made.world, p, made.value.value, setErr, pointer);
      LogPrefixChain(w.log, made.world.log, b.world.log);
      b
  }

  /** `LoadMediaFromPath`: `loadMedia` for a local, existence-checked path. */
  function LoadMediaFromPath(w: World, p: Player, path: string, answers: MediaAnswers,
                             setErr: Option<string>, pointer: Option<Token>): (o: Outcome<Result<Media, Error>>)
    ensures answers.statErr.Some? ==> o.world == w && o.value.Err?
    ensures w.inst.Some? && answers.statErr.Some? ==> o.value == Err(FileSystem(answers.statErr.value))
  {
    LoadMedia(w, p, path, true, answers, setErr, pointer)
  }

  /** No media leaks, first case: when `loadMedia` succeeds, the native calls
      it made are exactly the creation, the binding of that media to the
      player, and the empty error read; nothing is released. */
  lemma LoadMediaSuccessBinds(w: World, p: Player, path: string, local: bool, answers: MediaAnswers,
                              setErr: Option<string>, pointer: Option<Token>)
    requires LoadMedia(w, p, path, local, answers, setErr, pointer).value.Ok?
    ensures w.inst.Some? && p.handle.Some? && answers.created.Some?
    ensures var o := LoadMedia(w, p, path, local, answers, setErr, pointer);
      Calls(o.world.log[|w.log|..])
      == [CreateCall(w, path, local), N.PlayerSetMedia(p.handle.value, answers.created.value), N.ErrorMessage]
  {
  }

  /** No media leaks, second case: when the media was created but binding it
      failed (a nil player, or an error on the channel after the bind), the
      last native call `loadMedia` makes releases that media, and the bind's
      error is what it returns. */
  lemma LoadMediaBindFailureReleases(w: World, p: Player, path: string, local: bool,
                                     answers: MediaAnswers, setErr: Option<string>, pointer: Option<Token>)
    requires w.inst.Some? && (!local || answers.statErr.None?) && answers.created.Some?
    requires p.handle.None? || setErr.Some?
    ensures var o := LoadMedia(w, p, path, local, answers, setErr, pointer);
      && o.value == Err(if p.handle.None? then PlayerNotInitialized else Engine(setErr.value))
      && |o.world.log| > |w.log|
      && o.world.log[|w.log|].call == CreateCall(w, path, local)
      && o.world.log[|o.world.log| - 1].call == N.MediaRelease(answers.created.value)
  {
  }

  /** No media leaks, third case: when no media was created, `loadMedia`
      neither binds nor releases anything, and a failed existence check or a
      missing instance issues no libvlc call and frees nothing. */
  lemma LoadMediaCreateFailureIssuesNoRelease(w: World, p: Player, path: string, local: bool,
                                              answers: MediaAnswers, setErr: Option<string>,
                                              pointer: Option<Token>)
    requires w.inst.None? || (local && answers.statErr.Some?) || answers.created.None?
    ensures var o := LoadMedia(w, p, path, local, answers, setErr, pointer);
      && o.value.Err?
      && (w.inst.None? || (local && answers.statErr.Some?) ==> o.world == w)
      && (w.inst.Some? && (!local || answers.statErr.None?) ==>
            Calls(o.world.log[|w.log|..])
            == [CreateCall(w, path, local), N.ErrorMessage]
               + (if answers.createErr.Some? then [N.ClearError] else []))
  {
  }

  /** Releasing a player twice: the second release returns nil and issues no
      native call. */
  lemma ReleasePlayerTwice(w: World, p: Player, errAfter: Option<string>, errAfter2: Option<string>)
    ensures var first := ReleasePlayer(w, p, errAfter);
      ReleasePlayer(first.world, first.value.wrapper, errAfter2)
        == Outcome(first.world, Released(first.value.wrapper, None))
  {
  }

  /** `Player.Media` on a player just created by `NewPlayer`, with the engine
      assumed to answer "no media bound" (`bound` is `None`): the answer is
      "no media, no error". */
  lemma FreshPlayerHasNoMedia(w: World, created: Token, errAfter: Option<string>)
    requires w.inst.Some?
    ensures var made := NewPlayer(w, Some(created), errAfter);
      && made.value.Ok?
      && CurrentMedia(made.world, made.value.value, None).value == Ok(None)
  {
  }
}

=== FILE: subscriptions.dfy ===
/** Event subscriptions on top of the event registry: `attach` stores a
    context and registers the native trampoline under its id, `Detach`
    removes contexts before unregistering them, and `eventDispatch` resolves
    an id fired by the engine and runs the stored callbacks. */
module Subscriptions {
  import opened Wrappers
  import opened Opaque
  import opened Errors
  import N = Native
  import opened EventRegistry
  import opened Lifecycle

  /** The id and error `attach` returns. */
  datatype Attached = Attached(id: nat, err: Option<Error>)

  /** One callback run by a dispatch: the external callback receives the
      stored event kind, the internal one the native event record. */
  datatype Invocation =
    | External(callback: Callback, event: Event, userData: Value)
    | Internal(callback: Callback, nativeEvent: Token, userData: Value)

  /** The registry of a live world. */
  function Events(w: World): EventRegistry.Registry
    requires w.inst.Some?
  {
    w.inst.value.events
  }

  /** The instance with another event registry. */
  function WithEvents(w: World, events: EventRegistry.Registry): World
    requires w.inst.Some?
  {
    w.(inst := Some(w.inst.value.(events := events)))
  }

  /** The counter has room for one more id without wrapping. */
  predicate HasRoom(w: World) {
    w.inst.Some? ==> w.inst.value.events.sequence + 1 < IdModulus
  }

  /** `attach`: validates its arguments, stores the context under a fresh id
      and only then asks the engine to register the trampoline under that id.
      `rc` is the native return code, `errAfter` the channel after it. A
      native failure returns id 0 but leaves the stored context in place. */
  function AttachCallbacks(w: World, em: EventManager, event: Event, external: Option<Callback>,
                           internal: Option<Callback>, userData: Value, rc: int,
                           errAfter: Option<string>): (o: Outcome<Attached>)
    ensures w.inst.None? ==> o == Outcome(w, Attached(0, Some(ModuleNotInitialized)))
    ensures w.inst.Some? && external.None? && internal.None? ==>
              o == Outcome(w, Attached(0, Some(InvalidEventCallback)))
    ensures w.inst.Some? && (external.Some? || internal.Some?) ==>
              && o.world.inst.Some?
              && var before := w.inst.value;
                 var after := o.world.inst.value;
                 var id := after.events.sequence;
                 && after.handle == before.handle
                 && after.objects == before.objects
                 && (before.events.sequence + 1 < IdModulus ==> id == before.events.sequence + 1)
                 && (id != 0 ==> Get(after.events, id) == Some(EventContext(event, external, internal, userData)))
                 && (forall k | k != id :: Get(after.events, k) == Get(before.events, k))
                 && |o.world.log| > |w.log|
                 && o.world.log[..|w.log|] == w.log
                 && o.world.log[|w.log|] == Effect(N.EventAttach(em.handle, event, id), after.events.contexts.Keys)
                 && (rc == 0 ==> o.value == Attached(id, None) && |o.world.log| == |w.log| + 1)
                 && (rc != 0 ==> o.value == Attached(0, Reported(errAfter)))
    ensures ValidWorld(w) && HasRoom(w) ==> ValidWorld(o.world)
  {
    if w.inst.None? then Outcome(w, Attached(0, Some(ModuleNotInitialized)))
    else if external.None? && internal.None? then Outcome(w, Attached(0, Some(InvalidEventCallback)))
    else
      var a := Add(Events(w), EventContext(event, external, internal, userData));
      var w1 := IssueReporting(WithEvents(w, a.registry), N.EventAttach(em.handle, event, a.id), errAfter);
      if rc != 0 then
        var g := GetError(w1);
        Outcome(g.world, Attached(0, g.value))
      else Outcome(w1, Attached(a.id, None))
  }

  /** `EventManager.Attach`: a subscription with an external callback only. */
  function Attach(w: World, em: EventManager, event: Event, callback: Option<Callback>,
                  userData: Value, rc: int, errAfter: Option<string>): (o: Outcome<Attached>)
    ensures w.inst.None? ==> o == Outcome(w, Attached(0, Some(ModuleNotInitialized)))
    ensures w.inst.Some? && callback.None? ==> o == Outcome(w, Attached(0, Some(InvalidEventCallback)))
    ensures w.inst.Some? && HasRoom(w) && callback.Some? && rc == 0 ==>
              && o.value.err.None?
              && o.value.id == w.inst.value.events.sequence + 1
              && forall ev :: Dispatch(o.world, ev, o.value.id) == [External(callback.value, event, userData)]
  {
    AttachCallbacks(w, em, event, callback, None, userData, rc, errAfter)
  }

  /** `eventDispatch`: the callbacks run, in order, when the engine fires the
      subscription `id`. Nothing runs without an instance or for an unknown
      id; otherwise the external callback runs before the internal one, each
      once, with the stored event kind and user data. */
  function Dispatch(w: World, nativeEvent: Token, id: nat): (calls: seq<Invocation>)
    ensures w.inst.None? ==> calls == []
    ensures w.inst.Some? && Get(Events(w), id).None? ==> calls == []
    ensures w.inst.Some? && Get(Events(w), id).Some? ==>
              var ctx := Get(Events(w), id).value;
              && |calls| == (if ctx.external.Some? then 1 else 0) + (if ctx.internal.Some? then 1 else 0)
              && (ctx.external.Some? ==> calls[0] == External(ctx.external.value, ctx.event, ctx.userData))
              && (ctx.internal.Some? ==> calls[|calls| - 1] == Internal(ctx.internal.value, nativeEvent, ctx.userData))
  {
    if w.inst.None? then []
    else match Get(Events(w), id)
      case None => []
      case Some(ctx) =>
        (if ctx.external.Some? then [External(ctx.external.value, ctx.event, ctx.userData)] else [])
        + (if ctx.internal.Some? then [Internal(ctx.internal.value, nativeEvent, ctx.userData)] else [])
  }

  /** One iteration of `Detach`'s loop: an unknown id is skipped; a known one
      is removed from the registry first and unregistered natively after. */
  function DetachOne(w: World, em: EventManager, id: nat): (w': World)
    requires w.inst.Some?
    ensures w'.inst.Some?
    ensures w'.inst.value.handle == w.inst.value.handle
    ensures w'.inst.value.objects == w.inst.value.objects
    ensures Events(w').sequence == Events(w).sequence
    ensures w'.lastError == w.lastError
    ensures Get(Events(w'), id).None?
    ensures forall k | k != id :: Get(Events(w'), k) == Get(Events(w), k)
    ensures Get(Events(w), id).None? ==> w'.log == w.log
    ensures Get(Events(w), id).Some? ==>
              w'.log == w.log + [Effect(N.EventDetach(em.handle, Get(Events(w), id).value.event, id),
                                        Events(w').contexts.Keys)]
    ensures EventRegistry.Valid(Events(w)) ==> EventRegistry.Valid(Events(w'))
  {
    match Get(Events(w), id)
    case None => w
    case Some(ctx) => Issue(WithEvents(w, Remove(Events(w), id)), N.EventDetach(em.handle, ctx.event, id))
  }

  /** `Detach`'s loop over the ids. */
  function DetachAll(w: World, em: EventManager, ids: seq<nat>): (w': World)
    requires w.inst.Some?
    ensures w'.inst.Some?
    ensures w'.inst.value.handle == w.inst.value.handle
    ensures w'.inst.value.objects == w.inst.value.objects
    ensures Events(w').sequence == Events(w).sequence
    ensures w'.lastError == w.lastError
    ensures forall id | id in ids :: Get(Events(w'), id).None?
    ensures forall k | k !in ids :: Get(Events(w'), k) == Get(Events(w), k)
    ensures |w'.log| >= |w.log| && w'.log[..|w.log|] == w.log
    ensures forall j | |w.log| <= j < |w'.log| ::
              && w'.log[j].call.EventDetach?
              && w'.log[j].call.id in ids
              && Get(Events(w), w'.log[j].call.id).Some?
              && w'.log[j].call
                 == N.EventDetach(em.handle, Get(Events(w), w'.log[j].call.id).value.event, w'.log[j].call.id)
              && w'.log[j].call.id !in w'.log[j].live
    ensures forall i, j | |w.log| <= i < j < |w'.log| :: w'.log[i].call != w'.log[j].call
    ensures EventRegistry.Valid(Events(w)) ==> EventRegistry.Valid(Events(w'))
    decreases |ids|
  {
    if ids == [] then w
    else
      var w1 := DetachOne(w, em, ids[0]);
      var w2 := DetachAll(w1, em, ids[1..]);
      assert w2.log[..|w.log|] == w.log by {
        assert w2.log[..|w1.log|] == w1.log;
      }
      assert forall j | |w1.log| <= j < |w2.log| ::
               && w2.log[j].call.id != ids[0]
               && Get(Events(w1), w2.log[j].call.id) == Get(Events(w), w2.log[j].call.id);
      assert forall j | |w.log| <= j < |w1.log| :: w2.log[j] == w1.log[j];
      w2
  }

  /** Every listed id that was registered is unregistered natively. */
  lemma {:induction false} DetachAllIssuesEveryFound(w: World, em: EventManager, ids: seq<nat>, id: nat)
    requires w.inst.Some?
    requires id in ids && Get(Events(w), id).Some?
    ensures N.EventDetach(em.handle, Get(Events(w), id).value.event, id)
            in Calls(DetachAll(w, em, ids).log[|w.log|..])
    decreases |ids|
  {
    var call := N.EventDetach(em.handle, Get(Events(w), id).value.event, id);
    var w1 := DetachOne(w, em, ids[0]);
    var w2 := DetachAll(w, em, ids);
    assert w2 == DetachAll(w1, em, ids[1..]);
    assert w2.log[..|w1.log|] == w1.log;
    if id == ids[0] {
      assert w2.log[|w.log|] == w1.log[|w.log|];
      assert Calls(w2.log[|w.log|..])[0] == call;
    } else {
      assert id in ids[1..];
      DetachAllIssuesEveryFound(w1, em, ids[1..], id);
      var tail := Calls(w2.log[|w1.log|..]);
      var j :| 0 <= j < |tail| && tail[j] == call;
      assert Calls(w2.log[|w.log|..])[j + |w1.log| - |w.log|] == call;
    }
  }

  /** `EventManager.Detach`: a no-op without an instance; otherwise every
      listed id that is registered is removed and then unregistered with the
      engine, unknown ids are skipped, and nothing else changes. */
  function Detach(w: World, em: EventManager, ids: seq<nat>): (w': World)
    ensures w.inst.None? ==> w' == w
    ensures w.inst.Some? ==>
              && w'.inst.Some?
              && w'.inst.value.handle == w.inst.value.handle
              && w'.inst.value.objects == w.inst.value.objects
              && Events(w').sequence == Events(w).sequence
              && (forall id | id in ids :: Get(Events(w'), id).None?)
              && (forall k | k !in ids :: Get(Events(w'), k) == Get(Events(w), k))
              && |w'.log| >= |w.log| && w'.log[..|w.log|] == w.log
              && (forall j | |w.log| <= j < |w'.log| ::
                    && w'.log[j].call.EventDetach?
                    && w'.log[j].call.id in ids
                    && Get(Events(w), w'.log[j].call.id).Some?
                    && w'.log[j].call
                       == N.EventDetach(em.handle, Get(Events(w), w'.log[j].call.id).value.event, w'.log[j].call.id)
                    && w'.log[j].call.id !in w'.log[j].live)
              && (forall i, j | |w.log| <= i < j < |w'.log| :: w'.log[i].call != w'.log[j].call)
              && (forall id | id in ids && Get(Events(w), id).Some? ::
                    N.EventDetach(em.handle, Get(Events(w), id).value.event, id) in Calls(w'.log[|w.log|..]))
    ensures w'.lastError == w.lastError
    ensures ValidWorld(w) ==> ValidWorld(w')
  {
    if w.inst.None? then w
    else
      var w' := DetachAll(w, em, ids);
      assert forall id | id in ids && Get(Events(w), id).Some? ::
               N.EventDetach(em.handle, Get(Events(w), id).value.event, id) in Calls(w'.log[|w.log|..]) by {
        forall id | id in ids && Get(Events(w), id).Some?
          ensures N.EventDetach(em.handle, Get(Events(w), id).value.event, id) in Calls(w'.log[|w.log|..])
        {
          DetachAllIssuesEveryFound(w, em, ids, id);
        }
      }
      w'
  }

  /** Attaching and then dispatching the returned id runs exactly the
      callbacks supplied, external first, with the arguments supplied. */
  lemma AttachThenDispatch(w: World, em: EventManager, event: Event, external: Option<Callback>,
                           internal: Option<Callback>, userData: Value, errAfter: Option<string>,
                           nativeEvent: Token)
    requires ValidWorld(w) && w.inst.Some? && HasRoom(w)
    requires external.Some? || internal.Some?
    ensures var o := AttachCallbacks(w, em, event, external, internal, userData, 0, errAfter);
      && o.value.err.None?
      && o.value.id != 0
      && o.value.id !in w.inst.value.events.contexts
      && Dispatch(o.world, nativeEvent, o.value.id)
         == (if external.Some? then [External(external.value, event, userData)] else [])
            + (if internal.Some? then [Internal(internal.value, nativeEvent, userData)] else [])
  {
  }

  /** When the native registration fails, the id returned is 0, which no
      dispatch resolves, while the context stays stored under the id the
      counter moved to. */
  lemma AttachFailureOrphansContext(w: World, em: EventManager, event: Event,
                                    external: Option<Callback>, internal: Option<Callback>,
                                    userData: Value, rc: int, errAfter: Option<string>,
                                    nativeEvent: Token)
    requires ValidWorld(w) && w.inst.Some? && HasRoom(w)
    requires external.Some? || internal.Some?
    requires rc != 0
    ensures var o := AttachCallbacks(w, em, event, external, internal, userData, rc, errAfter);
      && o.value.id == 0
      && Dispatch(o.world, nativeEvent, o.value.id) == []
      && var orphan := w.inst.value.events.sequence + 1;
         Get(Events(o.world), orphan) == Some(EventContext(event, external, internal, userData))
  {
  }

  /** After `Detach(ids)`, a dispatch for any of those ids runs nothing. */
  lemma DetachThenDispatch(w: World, em: EventManager, ids: seq<nat>, id: nat, nativeEvent: Token)
    requires id in ids
    ensures Dispatch(Detach(w, em, ids), nativeEvent, id) == []
  {
  }

  /** Attaching and then detaching the returned id restores the registry's
      contents, but the counter has moved on, so the id is never reused. */
  lemma AttachDetachRoundTrip(w: World, em: EventManager, event: Event, external: Option<Callback>,
                              internal: Option<Callback>, userData: Value, errAfter: Option<string>)
    requires ValidWorld(w) && w.inst.Some? && HasRoom(w)
    requires external.Some? || internal.Some?
    ensures var o := AttachCallbacks(w, em, event, external, internal, userData, 0, errAfter);
      var d := Detach(o.world, em, [o.value.id]);
      && Events(d).contexts == Events(w).contexts
      && Events(d).sequence == Events(w).sequence + 1
  {
    var o := AttachCallbacks(w, em, event, external, internal, userData, 0, errAfter);
    var d := Detach(o.world, em, [o.value.id]);
    forall k ensures k in Events(d).contexts <==> k in Events(w).contexts {
      assert Get(Events(d), k) == Get(Events(w), k) || k == o.value.id;
    }
    forall k | k in Events(d).contexts ensures Events(d).contexts[k] == Events(w).contexts[k] {
      assert Get(Events(d), k) == Get(Events(w), k);
    }
  }
}

=== FILE: wrappers.dfy ===
/** How the model writes Go's nil-able values: a pointer or interface that
    may be nil is an `Option`, and a `(value, error)` pair of which exactly
    one half is set is a `Result`. */
module Wrappers {

  datatype Option<+T> = None | Some(value: T)

  datatype Result<+T, +E> = Ok(value: T) | Err(error: E)
}
